=== FILE: README.md ===
# Weekly calendar: a Dafny model of the layout and bucketing core

This project models the computational core of the `local_weekly_calendar`
Moodle plugin, which renders a week of calendar events as HTML and as PDF:

- **Event geometry** (`EventExporter`, `event_exporter.dfy`): from an event's
  start and end wall-clock times and the rendered day, the top offset, the
  height and the visibility of the event's box, once in screen pixels
  (80 per hour) and once in PDF units (51 per hour), over a day grid that
  starts at 08:00. Both targets share one skeleton parameterised by a
  `Canvas` (scale, clamp bounds, empirical trims, minimum and default
  heights); the screen canvas has no trims, so the skeleton reduces to the
  screen code exactly (`ScreenHasNoTrims`). Values are exact reals; the
  `"px"` suffix is a separate unit string.
- **Week assembly** (`WeekExporter`, `week_exporter.dfy`): the seven dates of
  the displayed week, the events on each date (ordinal key
  `year * 366 + yday`), the `istoday` and `isweekend` flags, the weekday
  names rotated from the first day of the week, the start instants of the
  current, previous and next weeks, the period label, and the instance
  counter.
- **View resolution** (`View`, `view.dfy`): the window `[tstart, tend]` of
  each view kind, the lookahead and event limit, the normalisation of the
  user/group/course/category filters, skipping the event fetch, and the
  choice of exporter and template.
- **Shared records** (`Calendar`, `calendar.dfy`): the date array, the
  calendar-type service, events, `Option`, and the ordinal key.

The calendar-type service (`timestamp_to_date_array`, `convert_to_timestamp`,
`get_weekday`, `get_num_days_in_month`, `get_num_weekdays`, `get_weekdays`,
`get_starting_weekday`) is a value of `CalendarType` whose operations are
function-valued fields: nothing assumes a particular calendar. PHP's `date()`
is the parameter `clock`, `userdate` the parameter `userdate`,
`DateTime::modify('+N days')` the parameter `addDays`, `time()` the parameter
`now`, and the event source the parameter `source`. Results that need more
than the code itself relies on state their assumptions either as `requires`
of lemmas (`YdayInRange`, `UniformDays`, agreement of `get_weekday` with
`wday`) or as the hypothesis of an `ensures` implication (`AddDaysAdvances`
in `ResolveWindow`, `WeekdaysCycleDaily` in `WeekData`).

Behaviours of the code worth knowing, each stated in a contract:

- Only the hour and the minute of the start and end are read, so the
  geometry depends on those readings, not on the event's length in
  seconds: a 40-second event within one minute is laid out like a
  zero-length one, and a 2 min 50 s event from 10:00:05 like a two-minute
  one (`MinuteReadingsDecideGeometry`).
- A screen height of exactly 0 (for instance an event whose start and end
  read the same minute between 08:00 and 20:00 of the rendered day) is
  snapped to 80 pixels, not kept at 0: the `< 40` test comes after the
  `< 0` test (`ZeroLengthEventSnapsToDefaultHeight`). Only a negative height
  hides the box; such an event before 08:00 is hidden, because its top
  is clamped up to 0 while its bottom stays below it
  (`ZeroLengthEventBeforeGridIsHidden`).
- The PDF's 2-unit bottom trim is applied before any clamp or snap, so an
  event whose start and end, read to the minute on the rendered day, differ
  by one or two minutes (less than 2/51 of an hour) and whose start reads
  between 08:00 and 20:00 collapses to a height of -2 on the PDF while the screen shows
  it 80 pixels tall (`OneMinuteEventCollapsesOnPdfOnly`,
  `ShortEventCollapsesOnPdfOnly`). An event whose start and end read the
  same minute escapes the trim and is snapped instead. A short event starting after 20:00 is trimmed
  too, but the top clamp that follows moves its top to 612, below the
  trimmed bottom, so it does not collapse.
- Weeks are anchored by subtracting `wday - 1` days. With the Gregorian
  numbering (0 = Sunday) a Sunday reference date yields the following
  Monday-to-Sunday week, which does not contain the reference day
  (`FirstDayNumber`, `PeriodStart`, `DayWindowInsideWeekWindowIff`). The
  comment at classes/week_exporter.php:338 says the first day must be the
  first day of the current week, which a Sunday reference contradicts; the
  model follows the code and leaves the numbering to the calendar type.
  On a calendar whose weekdays cycle daily, every period start is a
  weekday 1 (`PeriodStartIsWeekdayOne`).
- The upcoming window starts at the reference date's hour, not at the
  reference instant: minutes and seconds are dropped.
- An explicit lookahead of 0 counts as no lookahead (`!$lookahead`).
- A view name that is not recognised gets the month window and the month
  template but no exporter.

## Model

| member | source | states |
|---|---|---|
| `EventExporter.ClampTop` | classes/external/event_exporter_base.php:113-118 | the top ends in [0, maxTop]; an in-range top is unchanged, a negative one becomes 0, one past the bound becomes the bound |
| `EventExporter.ClampBottom` | classes/external/event_exporter_base.php:119-121 | the bottom never exceeds the full-day height, is unchanged when within it, and is otherwise exactly the full-day height; there is no lower clamp |
| `EventExporter.PreSnapHeight` | classes/external/event_exporter_base.php:166-171 | the height before the snap is negative exactly when the clamped bottom is above the clamped top (the 3-unit trim never makes a height negative) |
| `EventExporter.Layout` | classes/external/event_exporter_base.php:96-180 | top in [0, maxTop], 0 for an event that did not start that day, the grid offset when that is in range; collapsed iff bottom < top iff height = -border; otherwise height in [minHeight - border, fullDay - heightTrim - border]; heights in [0, minHeight) snap to the default, larger ones are kept; a same-day start before the grid gives top 0 and one past maxTop gives maxTop |
| `EventExporter.ScreenHasNoTrims` | classes/external/event_exporter_base.php:113-131 | on the screen canvas the shared skeleton computes the plain clamped bottom and bottom - top, as the screen code does |
| `EventExporter.ExportEvent` | classes/external/event_exporter_base.php:89-185 | timeduration = timeend - timestart; all four lengths are in px; visibility is hidden iff the screen bottom is above the screen top iff the screen height is 0; screen top in [0, 960], screen height 0 or in [40, 1040]; PDF top in [0, 612], PDF height -2 or in [18, 658], -2 exactly when the PDF pre-snap height is negative; the four lengths are the tops and heights of the screen and PDF layouts |
| `EventExporter.EarlyStartClampsToGridTop` | classes/external/event_exporter_base.php:96-131 | an event from 07:00 to 09:30 on the rendered day has screen top 0 and height 120 |
| `EventExporter.ShortEventSnapsToDefaultHeight` | classes/external/event_exporter_base.php:96-180 | a ten-minute event at 10:00 gets screen top 160 and height 80, PDF top 102 and height 44 |
| `EventExporter.OneMinuteEventCollapsesOnPdfOnly` | classes/external/event_exporter_base.php:139-180 | a one-minute event at 10:00 is visible and 80 tall on screen but collapses to height -2 on the PDF |
| `EventExporter.ShortEventCollapsesOnPdfOnly` | classes/external/event_exporter_base.php:96-180 | when start and end read the rendered day, the start reads between 08:00 and 20:00 and the end reads later by less than 2/51 h (one or two minutes), the box collapses on the PDF and is 80 tall at its grid offset on screen |
| `EventExporter.ZeroLengthEventSnapsToDefaultHeight` | classes/external/event_exporter_base.php:96-180 | an event whose start and end read the same minute between 08:00 and 20:00 on the rendered day is 80 tall on screen and 44 on the PDF at its grid offsets, collapsed on neither |
| `EventExporter.MinuteReadingsDecideGeometry` | classes/external/event_exporter_base.php:96-185 | with a clock that reads hour and minute off the timestamp, a 40-second event at 10:00:10 gets PDF height 44 and screen height 80, and a 2 min 50 s event at 10:00:05 collapses on the PDF (-2) while staying 80 on screen |
| `EventExporter.ZeroLengthEventBeforeGridIsHidden` | classes/external/event_exporter_base.php:113-131 | a zero-length event at 07:00 on the rendered day gets top 0 and height 0 on screen and is hidden |
| `EventExporter.MultiDayEventFillsColumn` | classes/external/event_exporter_base.php:100-180 | an event starting and ending on other days fills the column: screen 0/1040, PDF 0/656 |
| `Calendar.OrdinalKeyIsLexicographic` | classes/week_exporter.php:357-364 | for day-of-year values in [0, 366) the key order is the lexicographic (year, yday) order, and keys are equal iff both fields are |
| `WeekExporter.DayEvents` | classes/week_exporter.php:348-366 | an event is in a day's list iff it is an input event whose start key <= the day's key <= its end key; each such event appears as often as in the input, every other event never |
| `WeekExporter.DayEventsIsSubsequence` | classes/week_exporter.php:349-366 | a day's list is a subsequence of the input list, so the input order is kept |
| `WeekExporter.OnDayIsLexicographic` | classes/week_exporter.php:357-364 | on in-range dates, bucketing is the lexicographic comparison of (year, yday) at both ends |
| `WeekExporter.IsToday` | classes/week_exporter.php:368-371 | istoday implies equal ordinal keys, and on in-range dates is equivalent to them |
| `WeekExporter.BitOfMask` | classes/week_exporter.php:373 | reading bit k of a mask built from a list of bits gives the k-th bit, and no bit past the list |
| `WeekExporter.IsWeekend` | classes/week_exporter.php:373 | isweekend holds iff the weekend mask has bit (wday mod numberofdaysinweek) set, for any bit list the mask is built from |
| `WeekExporter.DefaultWeekendIsSaturdayAndSunday` | classes/week_exporter.php:330-373 | with the default mask and seven weekdays, the weekend is exactly wday 0 and 6 |
| `WeekExporter.FirstDayNumber` | classes/week_exporter.php:339-340 | the reference day is among the seven day numbers from mday - wday + 1 iff wday is in 1..7; for wday 0 the week starts the day after |
| `WeekExporter.WeekDates` | classes/week_exporter.php:336-346 | exactly seven dates, the i-th being day number mday - wday + 1 + i of the reference year and month |
| `WeekExporter.ExportDay` | classes/week_exporter.php:348-373 | a day's events are exactly the overlapping input events, with their multiplicity, and are the filtered list whose order `DayEventsIsSubsequence` states; istoday and isweekend as above |
| `WeekExporter.GetWeek` | classes/week_exporter.php:320-385 | given a positive number of weekdays and non-negative weekdays on the week's dates, seven days, in the order of the week's dates, each exported with today's date and the configured or default weekend mask |
| `WeekExporter.WeekBucketsAtTheEdges` | classes/week_exporter.php:357-365 | an event ending before every day of a week is in no day; an event listed once that covers every day is in each day exactly once |
| `WeekExporter.DayNumberRotation` | classes/week_exporter.php:304-306 | the column-to-day-number rotation and its inverse compose to the identity both ways on 0..n-1, and column 0 shows first mod n |
| `WeekExporter.DayNames` | classes/week_exporter.php:299-311 | n names, each with a valid day number and that number's name; day numbers pairwise distinct, every day number shown in its column, the first being first mod n |
| `WeekExporter.GetDayNames` | classes/week_exporter.php:299-311 | one entry per name of the calendar type, each with its own name, day numbers distinct, column i showing day (starting weekday + i) mod n, so day d sits in column (d - starting weekday) mod n and the first column shows the starting weekday (read at line 89) |
| `WeekExporter.PeriodStart` | classes/week_exporter.php:405-422 | current = time - (wday - 1) days, next and previous one week later and earlier; a current start lies within the six days before time when wday is in 1..7, and one day after time when wday is 0 |
| `WeekExporter.PeriodStartIsWeekdayOne` | classes/week_exporter.php:405-422 | when weekday numbers advance by one per day modulo 7, the previous, current and next starts all fall on weekday 1, for any reference weekday |
| `WeekExporter.WeekData` | classes/week_exporter.php:405-425 | the date array of the period's start, whose weekday is 1 on a calendar whose weekdays cycle daily |
| `WeekExporter.PeriodStartsAreWeekApart` | classes/week_exporter.php:408-421 | previous, current and next starts are spaced exactly one week apart |
| `WeekExporter.PeriodName` | classes/week_exporter.php:434-453 | the label is the start side, " - ", then the end side; the start side drops the month and year when the month names agree, and only the year when just the years agree |
| `WeekExporter.PeriodNameEndsWithFullEndDate` | classes/week_exporter.php:444-452 | when equal month names imply equal years, the label always ends with the end date's day, month and year |
| `WeekExporter.NewInstance` | classes/week_exporter.php:85-87 | a new instance's id exceeds the previous count and becomes the new count |
| `WeekExporter.NewInstances` | classes/week_exporter.php:83-87 | k constructions hand out k strictly increasing ids, all above the old count and at most the new count, which is the old one plus k |
| `View.Lookahead` | lib.php:66-74 | a non-zero explicit lookahead wins; otherwise the user preference, else the site setting, else 21 |
| `View.ZeroLookaheadIsNoLookahead` | lib.php:67 | an explicit lookahead of 0 gives the same result as none |
| `View.EventLimit` | lib.php:49-81 | the event limit is 0 outside the upcoming views; in them the user preference, else the site setting, else 10 |
| `View.ViewExtent` | lib.php:51-97 | day: the reference midnight and 1 day; week: midnight minus (weekday - 1) days and 7 days; upcoming: the reference date at its hour and the lookahead; otherwise the 1st of the month and the month's length |
| `View.ResolveWindow` | lib.php:46-101 | tend is one second before addDays(tstart, N); when addDays advances and N >= 1 the window is non-empty and ends before the next period |
| `View.DayWindowInsideWeekWindowIff` | lib.php:51-62 | with uniform days, the day window lies inside the week window iff the weekday is in 1..7; for weekday 0 the day lies wholly before the week |
| `View.CurrentPeriodFollowsWeekWindow` | lib.php:55-59 | when get_weekday agrees with wday, the week exporter's current start minus the week window's start is the reference instant's time past midnight |
| `View.Normalise` | lib.php:103-121 | null exactly for true; false gives the empty list, a scalar a one-element list holding it, an array itself |
| `View.NormaliseIsIdempotent` | lib.php:103-121 | normalising an already normalised filter changes nothing |
| `View.WindowTemplate` | lib.php:55-96 | the window branch sets no template for day and upcoming views, the week template exactly for week, the mini template exactly for mini and minithree, the month template exactly for every other view |
| `View.ChooseExporter` | lib.php:164-196 | month exporter iff month, monthblock, mini or minithree; week exporter iff week; day and upcoming exporters iff those views; navigation and loaded flags passed through, the course filter shown for month, monthblock and week |
| `View.Template` | lib.php:179-198 | every view ends with a template: week, day, upcoming, upcoming_mini and mini/minithree each iff that view, the month template iff none of these |
| `View.TemplateMatchesExporter` | lib.php:164-198 | each exporter is paired with its template, and an unknown view gets the month template with no exporter |
| `View.GetView` | lib.php:35-198 | the event query carries the resolved window, the event limit and the four normalised filters; skipping events yields no events, otherwise the source's answer to that query; exporter and template as chosen |

## Left out

- The exporters' schema tables (`define_properties`, `define_other_properties`, `define_related`) and `get_other_values`: they build URLs, check capabilities, look up strings and call framework renderers.
- The other fields the event exporter fills (name, description, location, course module, repeat data, `timesort`, `overdue`, ...): framework look-ups, not computation.
- The calendar-type service, `date()`, `userdate` and `DateTime::modify`: modelled as opaque function parameters; timezones and daylight-saving shifts live inside them.
- Event fetching through `core_calendar\local\api::get_events` and its visibility callback (lib.php:126-155): a database and permission collaborator, modelled as the opaque `source` of a query.
- `$calendar->set_viewmode`, the exporters' `export` calls and the data flags they set (`viewingday`, `showviewselector`, `viewingupcoming`): framework rendering.
- `pdf.php` (Dompdf invocation, file reads, output buffering, streaming) and `version.php` (plugin metadata).
- PHP's float-to-string rendering of the `"px"` values and floating-point rounding: values are exact reals with the unit kept apart.
- PHP's type juggling beyond what the code exercises: the filter parameters are modelled as booleans, integer identifiers or lists of them.
- The default constants 21 (lookahead), 10 (maximum events) and 65 (weekend mask) are Moodle core's; Moodle core's calendar/lib.php is not part of this model.
- `WeekExporter.IsWeekend`: requires a positive number of weekdays and a `wday` that is non-negative or a multiple of it; for any other negative `wday` PHP's truncating `%` gives a negative shift, and with zero weekdays a zero modulus, both of which throw and are not represented.
- `WeekExporter.DayNames`: requires `first >= -n` when there is at least one name; below that PHP would read an undefined (negative) array index, which the model does not represent. With no names the loop never runs and any `first` is accepted.
- `WeekExporter.GetDayNames`: requires the starting weekday to be at least minus the number of names when there is at least one name, for the same reason as `DayNames`.

=== FILE: calendar.dfy ===
/**
 The records shared by the weekly calendar: the date array the calendar-type
 service produces, the service itself, and the events being displayed.

 The calendar-type service (Gregorian or any other calendar system) is not
 modelled: each of its operations is a function-valued field of
 `CalendarType`, so every result below holds for whatever calendar the site
 uses, under only the assumptions stated where they are needed.
 */
module Calendar {

  /** The conventional optional value, used for settings that may be unset. */
  datatype Option<+T> = None | Some(value: T) {

    /** The value if present, otherwise `default` (PHP's `isset(...) ? ... : default`). */
    function GetOr(default: T): (r: T)
      ensures Some? ==> r == value
      ensures None? ==> r == default
    {
      match this
      case Some(v) => v
      case None => default
    }
  }

  /** The fields of `timestamp_to_date_array` that the plugin reads:
      `year`, `mon`, `mday`, `wday` (0 = Sunday in the Gregorian type),
      `yday` (0-based day of the year) and `hours`. */
  datatype DateParts = DateParts(year: int, month: int, mday: int, wday: int, yday: int, hours: int)

  /** The calendar-type service, as opaque operations:
      - `toDate`: `timestamp_to_date_array(ts)`;
      - `toTimestamp`: `convert_to_timestamp(year, month, day, hour)`;
      - `weekday`: `get_weekday(year, month, day)`;
      - `daysInMonth`: `get_num_days_in_month(year, month)`;
      - `numWeekdays`: `get_num_weekdays()`;
      - `weekdayNames`: `get_weekdays()`, indexed by day number;
      - `startingWeekday`: `get_starting_weekday()`. */
  datatype CalendarType = CalendarType(
    toDate: int -> DateParts,
    toTimestamp: (int, int, int, int) -> int,
    weekday: (int, int, int) -> int,
    daysInMonth: (int, int) -> int,
    numWeekdays: int,
    weekdayNames: seq<string>,
    startingWeekday: int)

  /** A calendar event as the core sees it: an identifier and its start and
      end instants in seconds since the epoch. */
  datatype Event = Event(id: int, timestart: int, timeend: int)

  const SecondsPerDay: int := 60 * 60 * 24
  const SecondsPerWeek: int := 7 * SecondsPerDay

  /** True when the day-of-year fields the service produces are in range. */
  predicate YdayInRange(d: DateParts) {
    0 <= d.yday < 366
  }

  /** The key by which days are compared: `year * 366 + yday`. */
  function OrdinalKey(d: DateParts): int {
    d.year * 366 + d.yday
  }

  /** On in-range days the key order is the lexicographic order on
      (year, yday): 366 exceeds every day-of-year, so years never overlap. */
  lemma OrdinalKeyIsLexicographic(a: DateParts, b: DateParts)
    requires YdayInRange(a) && YdayInRange(b)
    ensures OrdinalKey(a) <= OrdinalKey(b) <==> a.year < b.year || (a.year == b.year && a.yday <= b.yday)
    ensures OrdinalKey(a) == OrdinalKey(b) <==> a.year == b.year && a.yday == b.yday
  {
    if a.year < b.year {
      assert a.year * 366 + 366 <= b.year * 366;
    } else if b.year < a.year {
      assert b.year * 366 + 366 <= a.year * 366;
    }
  }
}

=== FILE: event_exporter.dfy ===
/**
 The geometry part of the event exporter: where an event's box sits in the
 day column of the week view, once for the screen (CSS pixels, 80 per hour)
 and once for the PDF (51 per hour), both over a grid that starts at 08:00.

 Both targets share one skeleton, parameterised by a `Canvas`:
   1. raw top: the start's grid offset if the event starts on the rendered
      day, else 0; raw bottom: the end's grid offset if it ends on that day,
      else the full-day height;
   2. the bottom is trimmed by `bottomTrim` when it differs from the top;
   3. the top is clamped into [0, maxTop], the bottom to at most `fullDay`;
   4. height = bottom - top, reduced by `heightTrim` when above it;
   5. a negative height becomes 0 (the box collapses), a height below
      `minHeight` becomes `defaultHeight`;
   6. `border` is subtracted from the height.
 The screen canvas has no trims and no border, so steps 2, 4 and 6 leave its
 values alone and the skeleton is exactly the screen computation.

 The arithmetic is exact: PHP's floating-point values are modelled as reals.
 */
module EventExporter {
  import opened Calendar

  /** What PHP's `date()` reads off a timestamp in the server's timezone. */
  datatype WallClock = WallClock(year: int, month: int, day: int, hour: int, minute: int)

  /** `date("d/m/Y", a) == date("d/m/Y", b)`. */
  predicate SameDate(a: WallClock, b: WallClock) {
    a.year == b.year && a.month == b.month && a.day == b.day
  }

  /** The hour at which the day grid starts. */
  const DayOriginHour: int := 8

  /** The constants of one rendering target. */
  datatype Canvas = Canvas(
    unitsPerHour: real,
    maxTop: real,
    fullDay: real,
    bottomTrim: real,
    heightTrim: real,
    minHeight: real,
    defaultHeight: real,
    border: real)

  /** CSS pixels of the HTML week view. */
  const Screen: Canvas := Canvas(80.0, 960.0, 1040.0, 0.0, 0.0, 40.0, 80.0, 0.0)

  /** Units of the PDF rendering, with its empirical border corrections. */
  const Pdf: Canvas := Canvas(51.0, 612.0, 663.0, 2.0, 3.0, 20.0, 46.0, 2.0)

  /** The relations between a canvas's constants that its bounds depend on. */
  predicate Sound(k: Canvas) {
    && 0.0 <= k.maxTop <= k.fullDay
    && 0.0 <= k.heightTrim < k.minHeight <= k.defaultHeight <= k.fullDay - k.heightTrim
  }

  /** `((hour - 8) + minute / 60) * unitsPerHour`. */
  function GridOffset(c: WallClock, unitsPerHour: real): real {
    ((c.hour - DayOriginHour) as real + c.minute as real / 60.0) * unitsPerHour
  }

  function RawTop(k: Canvas, today: WallClock, start: WallClock): real {
    if SameDate(today, start) then GridOffset(start, k.unitsPerHour) else 0.0
  }

  function RawBottom(k: Canvas, today: WallClock, end: WallClock): real {
    if SameDate(today, end) then GridOffset(end, k.unitsPerHour) else k.fullDay
  }

  /** Top of the box: the raw top clamped into [0, maxTop]. */
  function ClampTop(k: Canvas, t: real): (r: real)
    requires Sound(k)
    ensures 0.0 <= r <= k.maxTop
    ensures 0.0 <= t <= k.maxTop ==> r == t
    ensures t < 0.0 ==> r == 0.0
    ensures t > k.maxTop ==> r == k.maxTop
  {
    var t0 := if t < 0.0 then 0.0 else t;
    if t0 > k.maxTop then k.maxTop else t0
  }

  /** Bottom of the box: never below the full day; the lower side is left open. */
  function ClampBottom(k: Canvas, b: real): (r: real)
    ensures r <= k.fullDay
    ensures b <= k.fullDay ==> r == b
    ensures r == b || r == k.fullDay
  {
    if b > k.fullDay then k.fullDay else b
  }

  function Top(k: Canvas, today: WallClock, start: WallClock): real
    requires Sound(k)
  {
    ClampTop(k, RawTop(k, today, start))
  }

  /** The bottom after the trim (applied to the unclamped values) and the clamp. */
  function Bottom(k: Canvas, today: WallClock, start: WallClock, end: WallClock): real {
    var top := RawTop(k, today, start);
    var bottom := RawBottom(k, today, end);
    ClampBottom(k, if bottom != top then bottom - k.bottomTrim else bottom)
  }

  /** Height before the minimum-height snap: bottom - top, less `heightTrim` when above it. */
  function PreSnapHeight(k: Canvas, today: WallClock, start: WallClock, end: WallClock): (h: real)
    requires Sound(k)
    ensures h < 0.0 <==> Bottom(k, today, start, end) < Top(k, today, start)
    ensures h <= k.fullDay - k.heightTrim || h <= k.heightTrim
  {
    var h0 := Bottom(k, today, start, end) - Top(k, today, start);
    if h0 > k.heightTrim then h0 - k.heightTrim else h0
  }

  /** A laid-out box: its top, its final height, and whether it collapsed. */
  datatype Span = Span(top: real, height: real, collapsed: bool)

  function Layout(k: Canvas, today: WallClock, start: WallClock, end: WallClock): (s: Span)
    requires Sound(k)
    ensures 0.0 <= s.top <= k.maxTop
    ensures !SameDate(today, start) ==> s.top == 0.0
    ensures SameDate(today, start) && 0.0 <= GridOffset(start, k.unitsPerHour) <= k.maxTop
            ==> s.top == GridOffset(start, k.unitsPerHour)
    ensures SameDate(today, start) && GridOffset(start, k.unitsPerHour) < 0.0 ==> s.top == 0.0
    ensures SameDate(today, start) && GridOffset(start, k.unitsPerHour) > k.maxTop ==> s.top == k.maxTop
    ensures s.collapsed <==> Bottom(k, today, start, end) < s.top
    ensures s.collapsed <==> s.height == -k.border
    ensures !s.collapsed ==> k.minHeight - k.border <= s.height <= k.fullDay - k.heightTrim - k.border
    ensures var h := PreSnapHeight(k, today, start, end);
            && (0.0 <= h < k.minHeight ==> s.height == k.defaultHeight - k.border)
            && (k.minHeight <= h ==> s.height == h - k.border)
  {
    var h := PreSnapHeight(k, today, start, end);
    var snapped := if h < 0.0 then 0.0 else if h < k.minHeight then k.defaultHeight else h;
    Span(Top(k, today, start), snapped - k.border, h < 0.0)
  }

  /** On the screen canvas the trims are void: the bottom is the clamped raw
      bottom and the pre-snap height is plain bottom - top. */
  lemma ScreenHasNoTrims(today: WallClock, start: WallClock, end: WallClock)
    ensures Bottom(Screen, today, start, end) == ClampBottom(Screen, RawBottom(Screen, today, end))
    ensures PreSnapHeight(Screen, today, start, end)
            == Bottom(Screen, today, start, end) - Top(Screen, today, start)
  {
  }

  /** A length written out with its CSS unit, as the template receives it. */
  datatype Length = Length(value: real, unit: string)

  const PxUnit: string := "px"
  const Hidden: string := "visibility: hidden;"

  /** The geometry-related fields the exporter puts on an event. */
  datatype EventData = EventData(
    timestart: int,
    timeend: int,
    timeduration: int,
    eventvisibility: string,
    eventtop: Length,
    eventheight: Length,
    eventtoppdf: Length,
    eventheightpdf: Length)

  /** The exporter's constructor restricted to timing and geometry: `today`
      is the rendered day's timestamp and `clock` is PHP's `date()` in the
      server timezone. The lengths are the two canvases' layouts, so `Layout`'s
      clamp and snap cases carry over to them; the visibility flag comes from
      the screen layout only. */
  function ExportEvent(e: Event, today: int, clock: int -> WallClock): (d: EventData)
    ensures d.timestart == e.timestart && d.timeend == e.timeend
    ensures d.timestart + d.timeduration == d.timeend
    ensures d.eventtop.unit == PxUnit && d.eventheight.unit == PxUnit
    ensures d.eventtoppdf.unit == PxUnit && d.eventheightpdf.unit == PxUnit
    ensures d.eventvisibility == Hidden || d.eventvisibility == ""
    ensures d.eventvisibility == Hidden
            <==> Bottom(Screen, clock(today), clock(e.timestart), clock(e.timeend))
                 < Top(Screen, clock(today), clock(e.timestart))
    ensures d.eventvisibility == Hidden <==> d.eventheight.value == 0.0
    ensures 0.0 <= d.eventtop.value <= 960.0
    ensures d.eventheight.value == 0.0 || 40.0 <= d.eventheight.value <= 1040.0
    ensures 0.0 <= d.eventtoppdf.value <= 612.0
    ensures d.eventheightpdf.value == -2.0 || 18.0 <= d.eventheightpdf.value <= 658.0
    ensures d.eventheightpdf.value == -2.0
            <==> PreSnapHeight(Pdf, clock(today), clock(e.timestart), clock(e.timeend)) < 0.0
    ensures var screen := Layout(Screen, clock(today), clock(e.timestart), clock(e.timeend));
            d.eventtop.value == screen.top && d.eventheight.value == screen.height
    ensures var pdf := Layout(Pdf, clock(today), clock(e.timestart), clock(e.timeend));
            d.eventtoppdf.value == pdf.top && d.eventheightpdf.value == pdf.height
  {
    var day := clock(today);
    var start := clock(e.timestart);
    var end := clock(e.timeend);
    var screen := Layout(Screen, day, start, end);
    var pdf := Layout(Pdf, day, start, end);
    EventData(
      e.timestart,
      e.timeend,
      e.timeend - e.timestart,
      if screen.collapsed then Hidden else "",
      Length(screen.top, PxUnit),
      Length(screen.height, PxUnit),
      Length(pdf.top, PxUnit),
      Length(pdf.height, PxUnit))
  }

  /** An event from 07:00 to 09:30 on the rendered day: the top is clamped to
      the grid's start, and the box is 1.5 hours tall. */
  lemma EarlyStartClampsToGridTop()
    ensures var day := WallClock(2025, 3, 10, 0, 0);
            var s := Layout(Screen, day, WallClock(2025, 3, 10, 7, 0), WallClock(2025, 3, 10, 9, 30));
            s.top == 0.0 && s.height == 120.0 && !s.collapsed
  {
  }

  /** A ten-minute event at 10:00 is snapped to the default heights: 80 on
      screen, 46 - 2 on the PDF. */
  lemma ShortEventSnapsToDefaultHeight()
    ensures var day := WallClock(2025, 3, 10, 0, 0);
            var start := WallClock(2025, 3, 10, 10, 0);
            var end := WallClock(2025, 3, 10, 10, 10);
            && Layout(Screen, day, start, end) == Span(160.0, 80.0, false)
            && Layout(Pdf, day, start, end) == Span(102.0, 44.0, false)
  {
  }

  /** The PDF's bottom trim is applied before any snap, so an event of one
      minute is shown on screen (snapped to 80) but collapses on the PDF. */
  lemma OneMinuteEventCollapsesOnPdfOnly()
    ensures var day := WallClock(2025, 3, 10, 0, 0);
            var start := WallClock(2025, 3, 10, 10, 0);
            var end := WallClock(2025, 3, 10, 10, 1);
            && Layout(Screen, day, start, end) == Span(160.0, 80.0, false)
            && Layout(Pdf, day, start, end) == Span(102.0, -2.0, true)
  {
  }

  /** The general case behind the previous lemma. Only the hour and minute
      are read, so it is the readings that matter, not the event's length in
      seconds: when start and end read the rendered day, the start reads
      between 08:00 and 20:00, and the end reads later than the start by
      less than 2/51 of an hour (one or two minutes), the box collapses on
      the PDF and is snapped to the default height on screen. */
  lemma ShortEventCollapsesOnPdfOnly(today: WallClock, start: WallClock, end: WallClock)
    requires SameDate(today, start) && SameDate(today, end)
    requires 0.0 <= GridOffset(start, 1.0) <= 12.0
    requires GridOffset(start, 1.0) < GridOffset(end, 1.0) < GridOffset(start, 1.0) + 2.0 / 51.0
    ensures Layout(Pdf, today, start, end).collapsed
    ensures Layout(Screen, today, start, end) == Span(GridOffset(start, 80.0), 80.0, false)
  {
  }

  /** An event whose start and end read the same minute inside the grid
      escapes both trims: its screen box is snapped to 80 and its PDF box to
      46 - 2, neither collapsed. */
  lemma ZeroLengthEventSnapsToDefaultHeight(today: WallClock, start: WallClock)
    requires SameDate(today, start)
    requires 0.0 <= GridOffset(start, 1.0) <= 12.0
    ensures Layout(Screen, today, start, start) == Span(GridOffset(start, 80.0), 80.0, false)
    ensures Layout(Pdf, today, start, start) == Span(GridOffset(start, 51.0), 44.0, false)
  {
  }

  /** Only the minute readings count: with a clock reading hours and minutes
      of a day starting at timestamp 0, a 40-second event inside one minute
      is not collapsed, while a 2 min 50 s event spanning two minute
      boundaries collapses on the PDF. */
  lemma MinuteReadingsDecideGeometry()
    ensures var clock := (t: int) => WallClock(2025, 3, 10, t / 3600, (t % 3600) / 60);
            var short := ExportEvent(Event(1, 36010, 36050), 0, clock);
            var longer := ExportEvent(Event(2, 36005, 36175), 0, clock);
            && short.eventheight.value == 80.0 && short.eventheightpdf.value == 44.0
            && longer.eventheight.value == 80.0 && longer.eventheightpdf.value == -2.0
  {
    var clock := (t: int) => WallClock(2025, 3, 10, t / 3600, (t % 3600) / 60);
    var day, ten := WallClock(2025, 3, 10, 0, 0), WallClock(2025, 3, 10, 10, 0);
    assert clock(0) == day;
    assert clock(36010) == ten && clock(36050) == ten && clock(36005) == ten;
    assert clock(36175) == WallClock(2025, 3, 10, 10, 2);
    assert Layout(Screen, day, ten, ten) == Span(160.0, 80.0, false);
    assert Layout(Pdf, day, ten, ten) == Span(102.0, 44.0, false);
    assert Layout(Screen, day, ten, WallClock(2025, 3, 10, 10, 2)).height == 80.0;
    assert Layout(Pdf, day, ten, WallClock(2025, 3, 10, 10, 2)).height == -2.0;
  }

  /** Before 08:00 a zero-length event is hidden on screen: its top is
      clamped up to 0 while its bottom stays at the raw offset below it. */
  lemma ZeroLengthEventBeforeGridIsHidden()
    ensures var day := WallClock(2025, 3, 10, 0, 0);
            var at := WallClock(2025, 3, 10, 7, 0);
            Layout(Screen, day, at, at) == Span(0.0, 0.0, true)
  {
  }

  /** An event that starts and ends on other days fills the whole column. */
  lemma MultiDayEventFillsColumn(today: WallClock, start: WallClock, end: WallClock)
    requires !SameDate(today, start) && !SameDate(today, end)
    ensures Layout(Screen, today, start, end) == Span(0.0, 1040.0, false)
    ensures Layout(Pdf, today, start, end) == Span(0.0, 656.0, false)
  {
  }
}

=== FILE: view.dfy ===
/**
 Resolving a calendar view: the time window a view covers, the lookahead and
 event limit of the upcoming views, the normalised event filters, whether
 events are fetched at all, and which exporter and template render the view.

 `DateTime::modify('+N days')` in the user's timezone is the parameter
 `addDays`, and the event source (database and permission checks) is the
 parameter `source`, which receives the query the view would send.
 */
module View {
  import opened Calendar
  import WeekExporter

  /** Moodle's default number of lookahead days for the upcoming views. */
  const DefaultLookahead: int := 21

  /** Moodle's default maximum number of events on the upcoming views. */
  const DefaultMaxEvents: int := 10

  /** Site configuration (`$CFG->calendar_lookahead`, `$CFG->calendar_maxevents`)
      and the user's preferences of the same names, each possibly unset. */
  datatype Settings = Settings(
    siteLookahead: Option<int>,
    userLookahead: Option<int>,
    siteMaxEvents: Option<int>,
    userMaxEvents: Option<int>)

  predicate IsUpcoming(view: string) {
    view == "upcoming" || view == "upcoming_mini"
  }

  predicate IsMonthLike(view: string) {
    view == "month" || view == "monthblock" || view == "mini" || view == "minithree"
  }

  // ---------------------------------------------------------------------
  // Lookahead and event limit
  // ---------------------------------------------------------------------

  /** Days of lookahead. `arg` is the `$lookahead` argument; PHP's
      `!$lookahead` holds for both null and 0, so an explicit 0 falls back to
      the user preference, whose default is the site setting, whose default
      is Moodle's. */
  function Lookahead(arg: Option<int>, s: Settings): (n: int)
    ensures arg.Some? && arg.value != 0 ==> n == arg.value
    ensures (arg.None? || arg.value == 0) && s.userLookahead.Some? ==> n == s.userLookahead.value
    ensures (arg.None? || arg.value == 0) && s.userLookahead.None? && s.siteLookahead.Some?
            ==> n == s.siteLookahead.value
    ensures (arg.None? || arg.value == 0) && s.userLookahead.None? && s.siteLookahead.None?
            ==> n == DefaultLookahead
  {
    if arg.Some? && arg.value != 0 then arg.value
    else
      var default := if s.siteLookahead.Some? then s.siteLookahead.value else DefaultLookahead;
      s.userLookahead.GetOr(default)
  }

  /** An explicit lookahead of 0 is the same as none. */
  lemma ZeroLookaheadIsNoLookahead(s: Settings)
    ensures Lookahead(Some(0), s) == Lookahead(None, s)
  {
  }

  /** The maximum number of events fetched: 0 (no limit) outside the
      upcoming views, else the user preference, defaulting to the site
      setting, defaulting to Moodle's. */
  function EventLimit(view: string, s: Settings): (n: int)
    ensures !IsUpcoming(view) ==> n == 0
    ensures IsUpcoming(view) && s.userMaxEvents.Some? ==> n == s.userMaxEvents.value
    ensures IsUpcoming(view) && s.userMaxEvents.None? && s.siteMaxEvents.Some? ==> n == s.siteMaxEvents.value
    ensures IsUpcoming(view) && s.userMaxEvents.None? && s.siteMaxEvents.None? ==> n == DefaultMaxEvents
  {
    if IsUpcoming(view) then
      var default := if s.siteMaxEvents.Some? then s.siteMaxEvents.value else DefaultMaxEvents;
      s.userMaxEvents.GetOr(default)
    else
      0
  }

  // ---------------------------------------------------------------------
  // Window bounds
  // ---------------------------------------------------------------------

  /** Where a view's window starts and how many days it is long. */
  datatype Extent = Extent(start: int, days: int)

  /** The start and length of each kind of view, from the reference date
      `ref` and the lookahead in days. */
  function ViewExtent(cal: CalendarType, view: string, ref: DateParts, lookahead: int): (x: Extent)
    ensures view == "day" ==> x.days == 1
    ensures view == "week" ==> x.days == 7
    ensures IsUpcoming(view) ==> x.days == lookahead
    ensures view != "day" && view != "week" && !IsUpcoming(view)
            ==> x == Extent(cal.toTimestamp(ref.year, ref.month, 1, 0), cal.daysInMonth(ref.year, ref.month))
    ensures var midnight := cal.toTimestamp(ref.year, ref.month, ref.mday, 0);
            && (view == "day" ==> x.start == midnight)
            && (view == "week" ==> midnight - x.start == (cal.weekday(ref.year, ref.month, ref.mday) - 1) * SecondsPerDay)
            && (IsUpcoming(view) ==> x.start == cal.toTimestamp(ref.year, ref.month, ref.mday, ref.hours))
  {
    if view == "day" then
      Extent(cal.toTimestamp(ref.year, ref.month, ref.mday, 0), 1)
    else if view == "week" then
      var tstart := cal.toTimestamp(ref.year, ref.month, ref.mday, 0);
      var weekday := cal.weekday(ref.year, ref.month, ref.mday);
      Extent(tstart - (weekday - 1) * SecondsPerDay, 7)
    else if IsUpcoming(view) then
      Extent(cal.toTimestamp(ref.year, ref.month, ref.mday, ref.hours), lookahead)
    else
      Extent(cal.toTimestamp(ref.year, ref.month, 1, 0), cal.daysInMonth(ref.year, ref.month))
  }

  /** The inclusive window `[tstart, tend]` a view fetches events for. */
  datatype Window = Window(tstart: int, tend: int)

  /** `addDays` only moves forward when given a positive number of days. */
  ghost predicate AddDaysAdvances(addDays: (int, int) -> int) {
    forall t, n :: n >= 1 ==> addDays(t, n) > t
  }

  /** The window of a view: from the extent's start to one second before the
      start of the next period. */
  function ResolveWindow(cal: CalendarType, addDays: (int, int) -> int, view: string, time: int,
                         lookaheadArg: Option<int>, s: Settings): (w: Window)
    ensures var x := ViewExtent(cal, view, cal.toDate(time), Lookahead(lookaheadArg, s));
            && w.tstart == x.start
            && w.tend + 1 == addDays(x.start, x.days)
    ensures var x := ViewExtent(cal, view, cal.toDate(time), Lookahead(lookaheadArg, s));
            AddDaysAdvances(addDays) && x.days >= 1 ==> w.tstart <= w.tend < addDays(w.tstart, x.days)
  {
    var calendardate := cal.toDate(time);
    var x := ViewExtent(cal, view, calendardate, Lookahead(lookaheadArg, s));
    Window(x.start, addDays(x.start, x.days) - 1)
  }

  /** Days of a fixed length and no timezone shifts. */
  ghost predicate UniformDays(addDays: (int, int) -> int) {
    forall t, n :: addDays(t, n) == t + n * SecondsPerDay
  }

  /** With uniform days, the day view's window lies inside the week view's
      window exactly when the weekday number is in 1..7. A Sunday numbered 0
      puts the week window on the following seven days. */
  lemma DayWindowInsideWeekWindowIff(cal: CalendarType, addDays: (int, int) -> int, time: int,
                                     lookaheadArg: Option<int>, s: Settings)
    requires UniformDays(addDays)
    ensures var day := ResolveWindow(cal, addDays, "day", time, lookaheadArg, s);
            var week := ResolveWindow(cal, addDays, "week", time, lookaheadArg, s);
            var ref := cal.toDate(time);
            var w := cal.weekday(ref.year, ref.month, ref.mday);
            && (week.tstart <= day.tstart && day.tend <= week.tend <==> 1 <= w <= 7)
            && (w == 0 ==> day.tend < week.tstart)
  {
  }

  /** When `get_weekday` agrees with the date array's `wday`, the current
      week's start in the week exporter is the week window's start moved by
      the reference instant's time past midnight. */
  lemma CurrentPeriodFollowsWeekWindow(cal: CalendarType, addDays: (int, int) -> int, time: int,
                                       lookaheadArg: Option<int>, s: Settings)
    requires var ref := cal.toDate(time); cal.weekday(ref.year, ref.month, ref.mday) == ref.wday
    ensures var ref := cal.toDate(time);
            var week := ResolveWindow(cal, addDays, "week", time, lookaheadArg, s);
            WeekExporter.PeriodStart(cal, time, WeekExporter.Current) - week.tstart
              == time - cal.toTimestamp(ref.year, ref.month, ref.mday, 0)
  {
  }

  // ---------------------------------------------------------------------
  // Filter parameters
  // ---------------------------------------------------------------------

  /** A filter as the calendar holds it: a boolean, a single identifier or an array of them. */
  datatype Param = Flag(on: bool) | Scalar(value: int) | Items(items: seq<int>)

  /** A filter as the event source takes it: null (no restriction) or a list. */
  datatype Filter = Unrestricted | Only(ids: seq<int>)

  /** `true` lifts the restriction, `false` allows nothing, a scalar becomes a
      one-element list and an array is kept. */
  function Normalise(p: Param): (f: Filter)
    ensures f.Unrestricted? <==> p.Flag? && p.on
    ensures f.Only? ==> forall x :: x in f.ids <==> (p.Scalar? && x == p.value) || (p.Items? && x in p.items)
    ensures p.Scalar? ==> f.Only? && |f.ids| == 1
    ensures p.Items? ==> f.Only? && f.ids == p.items
  {
    match p
    case Flag(on) => if on then Unrestricted else Only([])
    case Scalar(v) => Only([v])
    case Items(xs) => Only(xs)
  }

  /** A normalised filter written back as a parameter. */
  function AsParam(f: Filter): Param {
    match f
    case Unrestricted => Flag(true)
    case Only(xs) => Items(xs)
  }

  /** Normalising is idempotent: a normalised filter passes through unchanged. */
  lemma NormaliseIsIdempotent(p: Param)
    ensures Normalise(AsParam(Normalise(p))) == Normalise(p)
  {
  }

  // ---------------------------------------------------------------------
  // Exporter and template
  // ---------------------------------------------------------------------

  /** The exporter that renders the view, with the settings the view applies to it. */
  datatype Exporter =
    | MonthView(includeNavigation: bool, initialEventsLoaded: bool, showCourseFilter: bool)
    | WeekView(includeNavigation: bool, initialEventsLoaded: bool, showCourseFilter: bool)
    | DayView
    | UpcomingView
    | NoView

  function ChooseExporter(view: string, includeNavigation: bool, skipEvents: bool): (x: Exporter)
    ensures x.MonthView? <==> IsMonthLike(view)
    ensures x.WeekView? <==> view == "week"
    ensures x.DayView? <==> view == "day"
    ensures x.UpcomingView? <==> IsUpcoming(view)
    ensures x.MonthView? || x.WeekView? ==> x.includeNavigation == includeNavigation && x.initialEventsLoaded == !skipEvents
    ensures x.MonthView? ==> (x.showCourseFilter <==> view == "month" || view == "monthblock")
    ensures x.WeekView? ==> x.showCourseFilter
  {
    if IsMonthLike(view) then
      MonthView(includeNavigation, !skipEvents, view == "month" || view == "monthblock")
    else if view == "week" then
      WeekView(includeNavigation, !skipEvents, true)
    else if view == "day" then
      DayView
    else if IsUpcoming(view) then
      UpcomingView
    else
      NoView
  }

  const WeekTemplate: string := "local_weekly_calendar/calendar_week"
  const MiniTemplate: string := "core_calendar/calendar_mini"
  const MonthTemplate: string := "core_calendar/calendar_month"
  const DayTemplate: string := "core_calendar/calendar_day"
  const UpcomingTemplate: string := "core_calendar/calendar_upcoming"
  const UpcomingMiniTemplate: string := "core_calendar/calendar_upcoming_mini"

  /** The template set while computing the window: the week template, or for
      the month-like fallback the mini or the month template. */
  function WindowTemplate(view: string): (t: Option<string>)
    ensures t.None? <==> view == "day" || IsUpcoming(view)
    ensures t == Some(WeekTemplate) <==> view == "week"
    ensures t == Some(MiniTemplate) <==> view == "mini" || view == "minithree"
    ensures t == Some(MonthTemplate)
            <==> !(view == "day" || IsUpcoming(view) || view == "week" || view == "mini" || view == "minithree")
  {
    if view == "day" || IsUpcoming(view) then None
    else if view == "week" then Some(WeekTemplate)
    else if view == "mini" || view == "minithree" then Some(MiniTemplate)
    else Some(MonthTemplate)
  }

  /** The template as finally chosen: the exporter branch overrides it for
      the day and upcoming views. Every view ends with one. */
  function Template(view: string): (t: Option<string>)
    ensures t.Some?
    ensures t.value == WeekTemplate <==> view == "week"
    ensures t.value == DayTemplate <==> view == "day"
    ensures t.value == UpcomingTemplate <==> view == "upcoming"
    ensures t.value == UpcomingMiniTemplate <==> view == "upcoming_mini"
    ensures t.value == MiniTemplate <==> view == "mini" || view == "minithree"
    ensures t.value == MonthTemplate
            <==> view !in {"week", "day", "upcoming", "upcoming_mini", "mini", "minithree"}
  {
    if view == "day" then Some(DayTemplate)
    else if view == "upcoming" then Some(UpcomingTemplate)
    else if view == "upcoming_mini" then Some(UpcomingMiniTemplate)
    else WindowTemplate(view)
  }

  /** Every exporter comes with the template that renders it; a view name
      nobody recognises gets the month window and template but no exporter. */
  lemma TemplateMatchesExporter(view: string, includeNavigation: bool, skipEvents: bool)
    ensures var x := ChooseExporter(view, includeNavigation, skipEvents);
            var t := Template(view).value;
            && (x.MonthView? ==> t == MiniTemplate || t == MonthTemplate)
            && (x.WeekView? <==> t == WeekTemplate)
            && (x.DayView? <==> t == DayTemplate)
            && (x.UpcomingView? <==> t == UpcomingTemplate || t == UpcomingMiniTemplate)
            && (x.NoView? ==> t == MonthTemplate)
  {
  }

  // ---------------------------------------------------------------------
  // The whole view
  // ---------------------------------------------------------------------

  /** The calendar being represented: its reference instant and its filters. */
  datatype CalendarInfo = CalendarInfo(
    time: int,
    users: Param,
    groups: Param,
    courses: Param,
    categories: Param)

  /** What the view asks the event source for. */
  datatype Query = Query(
    tstart: int,
    tend: int,
    limit: int,
    users: Filter,
    groups: Filter,
    courses: Filter,
    categories: Filter)

  datatype ViewOutput = ViewOutput(query: Query, events: seq<Event>, exporter: Exporter, template: string)

  /** `local_weekly_calendar_get_view` up to the hand-over to the exporter. */
  function GetView(cal: CalendarType, addDays: (int, int) -> int, calendar: CalendarInfo, view: string,
                   includeNavigation: bool, skipEvents: bool, lookaheadArg: Option<int>, s: Settings,
                   source: Query -> seq<Event>): (out: ViewOutput)
    ensures var w := ResolveWindow(cal, addDays, view, calendar.time, lookaheadArg, s);
            out.query.tstart == w.tstart && out.query.tend == w.tend
    ensures out.query.limit == EventLimit(view, s)
    ensures out.query.users == Normalise(calendar.users) && out.query.groups == Normalise(calendar.groups)
    ensures out.query.courses == Normalise(calendar.courses) && out.query.categories == Normalise(calendar.categories)
    ensures skipEvents ==> out.events == []
    ensures !skipEvents ==> out.events == source(out.query)
    ensures out.exporter == ChooseExporter(view, includeNavigation, skipEvents)
    ensures out.template == Template(view).value
  {
    var w := ResolveWindow(cal, addDays, view, calendar.time, lookaheadArg, s);
    var query := Query(w.tstart, w.tend, EventLimit(view, s),
                       Normalise(calendar.users), Normalise(calendar.groups),
                       Normalise(calendar.courses), Normalise(calendar.categories));
    var events := if skipEvents then [] else source(query);
    ViewOutput(query, events, ChooseExporter(view, includeNavigation, skipEvents), Template(view).value)
  }
}

=== FILE: week_exporter.dfy ===
/**
 The week exporter: the seven days of the displayed week, the events that
 fall on each, the per-day flags, the rotated weekday names, the start
 instants of the current, previous and next weeks, the period label, and the
 counter that numbers calendar instances on a page.
 */
module WeekExporter {
  import opened Calendar

  // ---------------------------------------------------------------------
  // Day bucketing
  // ---------------------------------------------------------------------

  /** An event is on a day when the day's key lies between the keys of the
      event's start and end dates, both ends included. */
  predicate OnDay(cal: CalendarType, e: Event, day: DateParts) {
    OrdinalKey(cal.toDate(e.timestart)) <= OrdinalKey(day) <= OrdinalKey(cal.toDate(e.timeend))
  }

  /** The events of one day, scanned in input order: an event is skipped when
      it starts after the day or ends before it. */
  function DayEvents(cal: CalendarType, events: seq<Event>, day: DateParts): (r: seq<Event>)
    ensures forall e :: e in r <==> e in events && OnDay(cal, e, day)
    ensures forall e :: multiset(r)[e] == if OnDay(cal, e, day) then multiset(events)[e] else 0
  {
    if |events| == 0 then []
    else
      assert events == [events[0]] + events[1..];
      (if OnDay(cal, events[0], day) then [events[0]] else []) + DayEvents(cal, events[1..], day)
  }

  /** `a` can be obtained from `b` by deleting elements. */
  ghost predicate IsSubsequence<T>(a: seq<T>, b: seq<T>)
    decreases |b|
  {
    || |a| == 0
    || (&& |b| > 0
        && ((a[0] == b[0] && IsSubsequence(a[1..], b[1..])) || IsSubsequence(a, b[1..])))
  }

  lemma SubsequenceKeep<T>(x: T, a: seq<T>, b: seq<T>)
    requires IsSubsequence(a, b)
    ensures IsSubsequence([x] + a, [x] + b)
  {
    assert ([x] + a)[1..] == a;
    assert ([x] + b)[1..] == b;
  }

  lemma SubsequenceSkip<T>(x: T, a: seq<T>, b: seq<T>)
    requires IsSubsequence(a, b)
    ensures IsSubsequence(a, [x] + b)
  {
    assert ([x] + b)[1..] == b;
  }

  /** A day's events keep the input order. */
  lemma {:induction false} DayEventsIsSubsequence(cal: CalendarType, events: seq<Event>, day: DateParts)
    ensures IsSubsequence(DayEvents(cal, events, day), events)
    decreases |events|
  {
    if |events| == 0 {
      assert DayEvents(cal, events, day) == [];
    } else {
      var rest := DayEvents(cal, events[1..], day);
      DayEventsIsSubsequence(cal, events[1..], day);
      assert events == [events[0]] + events[1..];
      if OnDay(cal, events[0], day) {
        assert DayEvents(cal, events, day) == [events[0]] + rest;
        SubsequenceKeep(events[0], rest, events[1..]);
      } else {
        assert DayEvents(cal, events, day) == rest;
        SubsequenceSkip(events[0], rest, events[1..]);
      }
    }
  }

  /** Whether the date's key lies in the event's key interval, stated on
      (year, yday) pairs: on in-range dates bucketing is lexicographic. */
  lemma OnDayIsLexicographic(cal: CalendarType, e: Event, day: DateParts)
    requires YdayInRange(cal.toDate(e.timestart)) && YdayInRange(cal.toDate(e.timeend)) && YdayInRange(day)
    ensures var s := cal.toDate(e.timestart);
            var t := cal.toDate(e.timeend);
            OnDay(cal, e, day)
            <==> (s.year < day.year || (s.year == day.year && s.yday <= day.yday))
                 && (day.year < t.year || (day.year == t.year && day.yday <= t.yday))
  {
    OrdinalKeyIsLexicographic(cal.toDate(e.timestart), day);
    OrdinalKeyIsLexicographic(day, cal.toDate(e.timeend));
  }

  // ---------------------------------------------------------------------
  // Per-day flags
  // ---------------------------------------------------------------------

  /** `istoday`: same year and same day of the year as today. */
  function IsToday(today: DateParts, day: DateParts): (r: bool)
    ensures r ==> OrdinalKey(today) == OrdinalKey(day)
    ensures YdayInRange(today) && YdayInRange(day) ==> (r <==> OrdinalKey(today) == OrdinalKey(day))
  {
    var r := today.year == day.year && today.yday == day.yday;
    if YdayInRange(today) && YdayInRange(day) then
      OrdinalKeyIsLexicographic(today, day);
      r
    else
      r
  }

  /** Moodle's default weekend mask: bits 0 and 6, Sunday and Saturday. */
  const DefaultWeekend: int := 65

  /** `$CFG->calendar_weekend` if set, else the default mask. */
  function WeekendMask(setting: Option<int>): int {
    setting.GetOr(DefaultWeekend)
  }

  /** Bit `k` of `x` in two's complement: `x` shifted right `k` times, then
      its lowest bit. Floor division keeps negative masks right. */
  function BitFrom(x: int, k: nat): bool
    decreases k
  {
    if k == 0 then x % 2 == 1 else BitFrom(x / 2, k - 1)
  }

  /** PHP's `($x & (1 << k)) != 0` on 64-bit integers: shifting by 64 or
      more gives 0, so no such bit is set. */
  function Bit(x: int, k: nat): bool {
    k < 64 && BitFrom(x, k)
  }

  /** The mask whose bit `i` is `bits[i]`. */
  function MaskOf(bits: seq<bool>): nat {
    if |bits| == 0 then 0 else (if bits[0] then 1 else 0) + 2 * MaskOf(bits[1..])
  }

  /** Reading a bit back from a built mask gives the bit put in. */
  lemma {:induction false} BitOfMask(bits: seq<bool>, k: nat)
    ensures BitFrom(MaskOf(bits), k) <==> k < |bits| && bits[k]
    decreases k
  {
    if |bits| == 0 {
      BitOfZero(k);
    } else if k > 0 {
      assert MaskOf(bits) / 2 == MaskOf(bits[1..]);
      BitOfMask(bits[1..], k - 1);
    }
  }

  lemma {:induction false} BitOfZero(k: nat)
    ensures !BitFrom(0, k)
    decreases k
  {
    if k > 0 {
      BitOfZero(k - 1);
    }
  }

  /** `isweekend`: bit `wday mod numberofdaysinweek` of the weekend mask.
      PHP's `%` truncates, so a negative `wday` gives a negative shift unless
      it is a multiple of the number of weekdays; on the inputs admitted here
      the truncating and the Euclidean remainder agree. */
  function IsWeekend(mask: int, wday: int, numWeekdays: int): (r: bool)
    requires numWeekdays > 0 && (wday >= 0 || wday % numWeekdays == 0)
    ensures forall bits: seq<bool> ::
              MaskOf(bits) == mask && |bits| <= 64 ==> (r <==> wday % numWeekdays < |bits| && bits[wday % numWeekdays])
  {
    forall bits: seq<bool> | MaskOf(bits) == mask && |bits| <= 64
      ensures Bit(mask, wday % numWeekdays) <==> wday % numWeekdays < |bits| && bits[wday % numWeekdays]
    {
      BitOfMask(bits, wday % numWeekdays);
    }
    Bit(mask, wday % numWeekdays)
  }

  /** With seven weekdays the default mask marks exactly Sunday (0) and Saturday (6). */
  lemma DefaultWeekendIsSaturdayAndSunday(wday: int)
    requires 0 <= wday
    ensures IsWeekend(DefaultWeekend, wday, 7) <==> wday % 7 == 0 || wday % 7 == 6
  {
    var bits := [true, false, false, false, false, false, true];
    assert MaskOf(bits) == DefaultWeekend;
    BitOfMask(bits, wday % 7);
  }

  // ---------------------------------------------------------------------
  // The seven days of the week
  // ---------------------------------------------------------------------

  /** The day number of the week's first day: `mday - wday + 1`. The
      reference day is among the seven numbers from it exactly when its
      `wday` is in 1..7; with 0 for Sunday, a Sunday reference starts the
      week on the following day. */
  function FirstDayNumber(d: DateParts): (r: int)
    ensures r <= d.mday < r + 7 <==> 1 <= d.wday <= 7
    ensures d.wday == 0 ==> r == d.mday + 1
  {
    d.mday - d.wday + 1
  }

  /** The dates of the displayed week: day numbers `first .. first + 6` of
      the reference month, each converted to a timestamp and back (the
      service normalises numbers outside the month). */
  function WeekDate(cal: CalendarType, time: int, i: int): DateParts {
    var ref := cal.toDate(time);
    cal.toDate(cal.toTimestamp(ref.year, ref.month, FirstDayNumber(ref) + i, 0))
  }

  /** The loop of `get_week` that collects the week's dates. */
  method WeekDates(cal: CalendarType, time: int) returns (days: seq<DateParts>)
    ensures |days| == 7
    ensures forall i :: 0 <= i < 7 ==> days[i] == WeekDate(cal, time, i)
  {
    var date := cal.toDate(time);
    var firstday := FirstDayNumber(date);
    days := [];
    var dayno := firstday;
    while dayno < firstday + 7
      invariant firstday <= dayno <= firstday + 7
      invariant |days| == dayno - firstday
      invariant forall i :: 0 <= i < |days| ==> days[i] == WeekDate(cal, time, i)
    {
      days := days + [cal.toDate(cal.toTimestamp(date.year, date.month, dayno, 0))];
      dayno := dayno + 1;
    }
  }

  /** One exported day. */
  datatype WeekDay = WeekDay(date: DateParts, istoday: bool, isweekend: bool, events: seq<Event>)

  /** The body of `get_week`'s day loop: the day's events and its flags.
      `today` is the current date and `mask` the weekend mask. */
  function ExportDay(cal: CalendarType, today: DateParts, mask: int, events: seq<Event>, date: DateParts): (d: WeekDay)
    requires date.wday >= 0 && cal.numWeekdays > 0
    ensures d.date == date
    ensures forall e :: e in d.events <==> e in events && OnDay(cal, e, date)
    ensures forall e :: OnDay(cal, e, date) ==> multiset(d.events)[e] == multiset(events)[e]
    ensures d.events == DayEvents(cal, events, date)
    ensures d.istoday <==> today.year == date.year && today.yday == date.yday
    ensures d.isweekend <==> Bit(mask, date.wday % cal.numWeekdays)
  {
    WeekDay(date, IsToday(today, date), IsWeekend(mask, date.wday, cal.numWeekdays), DayEvents(cal, events, date))
  }

  /** What `get_week`'s `%` and `<<` need of the calendar type: a positive
      number of weekdays and non-negative weekday numbers on the seven
      dates of the displayed week (otherwise PHP raises a division or shift
      error). */
  ghost predicate WeekdaysWellFormed(cal: CalendarType, time: int) {
    && cal.numWeekdays > 0
    && forall i :: 0 <= i < 7 ==> WeekDate(cal, time, i).wday >= 0
  }

  /** `get_week`: `time` is the calendar's reference instant, `now` the
      current time, `weekendSetting` the site's weekend mask if set. The
      seven days are the week's dates in order, each exported by `ExportDay`. */
  method GetWeek(cal: CalendarType, time: int, now: int, weekendSetting: Option<int>, events: seq<Event>)
    returns (week: seq<WeekDay>)
    requires WeekdaysWellFormed(cal, time)
    ensures |week| == 7
    ensures forall i :: 0 <= i < 7 ==>
              week[i] == ExportDay(cal, cal.toDate(now), WeekendMask(weekendSetting), events, WeekDate(cal, time, i))
  {
    var today := cal.toDate(now);
    var mask := WeekendMask(weekendSetting);
    var days := WeekDates(cal, time);
    week := seq(7, i requires 0 <= i < 7 => ExportDay(cal, today, mask, events, days[i]));
  }

  /** An event that ends before every day of a week is in none of its days,
      and an event listed once whose key interval covers the whole week is in
      every day exactly once. */
  lemma WeekBucketsAtTheEdges(cal: CalendarType, today: DateParts, mask: int, events: seq<Event>,
                              dates: seq<DateParts>, e: Event)
    requires cal.numWeekdays > 0
    requires forall i :: 0 <= i < |dates| ==> dates[i].wday >= 0
    ensures (forall i :: 0 <= i < |dates| ==> OrdinalKey(cal.toDate(e.timeend)) < OrdinalKey(dates[i]))
            ==> forall i :: 0 <= i < |dates| ==> e !in ExportDay(cal, today, mask, events, dates[i]).events
    ensures multiset(events)[e] == 1
            && (forall i :: 0 <= i < |dates| ==>
                  OrdinalKey(cal.toDate(e.timestart)) <= OrdinalKey(dates[i]) <= OrdinalKey(cal.toDate(e.timeend)))
            ==> forall i :: 0 <= i < |dates| ==> multiset(ExportDay(cal, today, mask, events, dates[i]).events)[e] == 1
  {
  }


  // ---------------------------------------------------------------------
  // Day names
  // ---------------------------------------------------------------------

  /** PHP's `%`: the remainder takes the sign of the dividend. */
  function PhpMod(a: int, b: int): (r: int)
    requires b != 0
    ensures a >= 0 ==> r == a % b
    ensures a < 0 ==> r <= 0
  {
    if a >= 0 then a % b else -((-a) % b)
  }

  /** Euclidean division is unique: a quotient and an in-range remainder
      that rebuild `x` are `x / n` and `x % n`. */
  lemma DivModUnique(x: int, n: int, q: int, r: int)
    requires n > 0 && 0 <= r < n && x == q * n + r
    ensures x / n == q && x % n == r
  {
    var q0, r0 := x / n, x % n;
    assert (q - q0) * n == r0 - r;
    if q > q0 {
      MulAtLeast(q - q0, n);
    } else if q < q0 {
      MulAtLeast(q0 - q, n);
    }
  }

  lemma MulAtLeast(k: int, n: int)
    requires k >= 1 && n > 0
    ensures k * n >= n
  {
    assert k * n == (k - 1) * n + n;
  }

  /** The day number shown in column `i`: `(i + first + n) % n`. With
      `first >= -n` the dividend is never negative. */
  function DayNumber(i: int, first: int, n: int): (r: int)
    requires n > 0 && 0 <= i && first >= -n
    ensures 0 <= r < n
  {
    PhpMod(i + first + n, n)
  }

  /** The column in which day number `d` is shown. */
  function ColumnOf(d: int, first: int, n: int): (c: int)
    requires n > 0
    ensures 0 <= c < n
  {
    (d - first) % n
  }

  lemma DayNumberValue(i: int, first: int, n: int)
    requires n > 0 && 0 <= i < n && first >= -n
    ensures var f := first % n;
            DayNumber(i, first, n) == if i + f < n then i + f else i + f - n
  {
    var f, k := first % n, first / n;
    assert first == k * n + f;
    if i + f < n {
      DivModUnique(i + first + n, n, k + 1, i + f);
    } else {
      DivModUnique(i + first + n, n, k + 2, i + f - n);
    }
  }

  lemma ColumnOfValue(d: int, first: int, n: int)
    requires n > 0 && 0 <= d < n
    ensures var f := first % n;
            ColumnOf(d, first, n) == if d >= f then d - f else d - f + n
  {
    var f, k := first % n, first / n;
    assert first == k * n + f;
    if d >= f {
      DivModUnique(d - first, n, -k, d - f);
    } else {
      DivModUnique(d - first, n, -k - 1, d - f + n);
    }
  }

  /** The rotation and `ColumnOf` are inverse bijections of 0..n-1, and the
      first column shows day `first mod n`. */
  lemma DayNumberRotation(first: int, n: int)
    requires n > 0 && first >= -n
    ensures forall i :: 0 <= i < n ==> ColumnOf(DayNumber(i, first, n), first, n) == i
    ensures forall d :: 0 <= d < n ==> DayNumber(ColumnOf(d, first, n), first, n) == d
    ensures DayNumber(0, first, n) == first % n
  {
    forall i | 0 <= i < n
      ensures ColumnOf(DayNumber(i, first, n), first, n) == i
    {
      DayNumberValue(i, first, n);
      ColumnOfValue(DayNumber(i, first, n), first, n);
    }
    forall d | 0 <= d < n
      ensures DayNumber(ColumnOf(d, first, n), first, n) == d
    {
      ColumnOfValue(d, first, n);
      DayNumberValue(ColumnOf(d, first, n), first, n);
    }
    DayNumberValue(0, first, n);
  }

  datatype DayName = DayName(dayno: int, name: string)

  /** `get_day_names`: the weekday names rotated to start at the first day of
      the week. `first` must be at least `-n` for every index to be valid.
      Every day number is shown exactly once, with its own name. */
  function DayNames(names: seq<string>, first: int): (r: seq<DayName>)
    requires |names| == 0 || first >= -|names|
    ensures |r| == |names|
    ensures forall i :: 0 <= i < |r| ==> 0 <= r[i].dayno < |names| && r[i].name == names[r[i].dayno]
    ensures forall i, j :: 0 <= i < j < |r| ==> r[i].dayno != r[j].dayno
    ensures forall d :: 0 <= d < |names| ==> r[ColumnOf(d, first, |names|)].dayno == d
    ensures |r| > 0 ==> r[0].dayno == first % |names|
  {
    var n := |names|;
    if n == 0 then []
    else
      DayNumberRotation(first, n);
      seq(n, i requires 0 <= i < n => DayName(DayNumber(i, first, n), names[DayNumber(i, first, n)]))
  }

  /** `get_day_names` on the calendar type: its weekday names, rotated so
      that the first column is its starting weekday (read by the exporter's
      constructor), with every name shown once. */
  function GetDayNames(cal: CalendarType): (r: seq<DayName>)
    requires |cal.weekdayNames| == 0 || cal.startingWeekday >= -|cal.weekdayNames|
    ensures |r| == |cal.weekdayNames|
    ensures forall i :: 0 <= i < |r| ==> 0 <= r[i].dayno < |r| && r[i].name == cal.weekdayNames[r[i].dayno]
    ensures forall i, j :: 0 <= i < j < |r| ==> r[i].dayno != r[j].dayno
    ensures forall d :: 0 <= d < |r| ==> r[ColumnOf(d, cal.startingWeekday, |r|)].dayno == d
    ensures |r| > 0 ==> r[0].dayno == cal.startingWeekday % |r|
    ensures |r| > 0 ==> r[0].name == cal.weekdayNames[cal.startingWeekday % |r|]
  {
    DayNames(cal.weekdayNames, cal.startingWeekday)
  }

  // ---------------------------------------------------------------------
  // Navigation between weeks
  // ---------------------------------------------------------------------

  datatype Period = Current | Previous | Next

  /** The start instant `get_week_data` computes: the reference instant moved
      back `wday - 1` days, then one week forward or back. */
  function PeriodStart(cal: CalendarType, time: int, when: Period): (t: int)
    ensures var current := time - (cal.toDate(time).wday - 1) * SecondsPerDay;
            && (when == Current ==> t == current)
            && (when == Next ==> t == current + SecondsPerWeek)
            && (when == Previous ==> t == current - SecondsPerWeek)
    ensures when == Current && 1 <= cal.toDate(time).wday <= 7 ==> time - 6 * SecondsPerDay <= t <= time
    ensures when == Current && cal.toDate(time).wday == 0 ==> t == time + SecondsPerDay
  {
    var current := time - (cal.toDate(time).wday - 1) * SecondsPerDay;
    match when
    case Current => current
    case Next => current + SecondsPerWeek
    case Previous => current - SecondsPerWeek
  }

  /** The calendar-type property under which weeks start on weekday 1:
      weekday numbers advance by one per day modulo 7 (so they lie in 0..6),
      as in the Gregorian type where 0 is Sunday and 1 is Monday. */
  ghost predicate WeekdaysCycleDaily(cal: CalendarType) {
    forall t, u :: (u - t) % SecondsPerDay == 0 ==>
      cal.toDate(u).wday == (cal.toDate(t).wday + (u - t) / SecondsPerDay) % 7
  }

  /** Every period start is a weekday 1, whatever the reference weekday
      (a Sunday reference, wday 0, moves forward to the next Monday). */
  lemma PeriodStartIsWeekdayOne(cal: CalendarType, time: int, when: Period)
    ensures WeekdaysCycleDaily(cal) ==> cal.toDate(PeriodStart(cal, time, when)).wday == 1
  {
    if WeekdaysCycleDaily(cal) {
      var w := cal.toDate(time).wday;
      assert w == (w + (time - time) / SecondsPerDay) % 7;
      var c := match when case Current => 0 case Next => 1 case Previous => -1;
      var k := 7 * c - (w - 1);
      var u := PeriodStart(cal, time, when);
      assert u - time == k * SecondsPerDay;
      DivModUnique(u - time, SecondsPerDay, k, 0);
      DivModUnique(w + k, 7, c, 1);
    }
  }

  /** `get_week_data`: the date array of the period's start, which is a
      weekday 1 on a calendar whose weekdays cycle daily. */
  function WeekData(cal: CalendarType, time: int, when: Period): (d: DateParts)
    ensures d == cal.toDate(PeriodStart(cal, time, when))
    ensures WeekdaysCycleDaily(cal) ==> d.wday == 1
  {
    PeriodStartIsWeekdayOne(cal, time, when);
    cal.toDate(PeriodStart(cal, time, when))
  }

  /** Previous, current and next starts are evenly spaced one week apart. */
  lemma PeriodStartsAreWeekApart(cal: CalendarType, time: int)
    ensures PeriodStart(cal, time, Next) - PeriodStart(cal, time, Current) == SecondsPerWeek
    ensures PeriodStart(cal, time, Current) - PeriodStart(cal, time, Previous) == SecondsPerWeek
  {
  }

  // ---------------------------------------------------------------------
  // Period label
  // ---------------------------------------------------------------------

  /** Words joined by single spaces. */
  function Words(ws: seq<string>): string {
    if |ws| == 0 then "" else if |ws| == 1 then ws[0] else ws[0] + " " + Words(ws[1..])
  }

  lemma WordsOfThree(a: string, b: string, c: string)
    ensures Words([a, b, c]) == a + " " + b + " " + c
  {
    assert [a, b, c][1..] == [b, c];
    assert [b, c][1..] == [c];
    assert Words([c]) == c;
    assert Words([b, c]) == b + " " + c;
    assert Words([a, b, c]) == a + " " + (b + " " + c);
  }

  /** `get_period_name`: `userdate` formats a timestamp with a pattern
      (`%d` day, `%B` month name, `%Y` year); the period ends six days after
      it starts. The start side of the label leaves out the trailing fields
      it shares with the end side: the month and year when the month names
      agree, only the year when just the years agree. */
  function PeriodName(userdate: (int, string) -> string, starttime: int): (r: string)
    ensures var endtime := starttime + 6 * SecondsPerDay;
            var d1, m1, y1 := userdate(starttime, "%d"), userdate(starttime, "%B"), userdate(starttime, "%Y");
            var d2, m2, y2 := userdate(endtime, "%d"), userdate(endtime, "%B"), userdate(endtime, "%Y");
            var startShown := [d1] + (if m1 == m2 then [] else [m1] + (if y1 == y2 then [] else [y1]));
            var endShown := [d2, m2, if m1 == m2 then y1 else y2];
            r == Words(startShown) + " - " + Words(endShown)
  {
    var endtime := starttime + 6 * SecondsPerDay;
    var daystart := userdate(starttime, "%d");
    var dayend := userdate(endtime, "%d");
    var monthstart := userdate(starttime, "%B");
    var monthend := userdate(endtime, "%B");
    var yearstart := userdate(starttime, "%Y");
    var yearend := userdate(endtime, "%Y");
    WordsOfThree(dayend, monthend, yearstart);
    WordsOfThree(dayend, monthend, yearend);
    WordsOfThree(daystart, monthstart, yearstart);
    assert Words([daystart, monthstart]) == daystart + " " + monthstart by {
      assert [daystart, monthstart][1..] == [monthstart];
    }
    if monthstart == monthend then
      daystart + " - " + dayend + " " + monthstart + " " + yearstart
    else if yearstart == yearend then
      daystart + " " + monthstart + " - " + dayend + " " + monthend + " " + yearstart
    else
      daystart + " " + monthstart + " " + yearstart + " - " + dayend + " " + monthend + " " + yearend
  }

  /** When a month name never recurs within six days in another year, the
      end date is always written out in full. */
  lemma PeriodNameEndsWithFullEndDate(userdate: (int, string) -> string, starttime: int)
    requires var endtime := starttime + 6 * SecondsPerDay;
             userdate(starttime, "%B") == userdate(endtime, "%B")
             ==> userdate(starttime, "%Y") == userdate(endtime, "%Y")
    ensures var endtime := starttime + 6 * SecondsPerDay;
            exists prefix :: PeriodName(userdate, starttime)
              == prefix + " - " + Words([userdate(endtime, "%d"), userdate(endtime, "%B"), userdate(endtime, "%Y")])
  {
    var endtime := starttime + 6 * SecondsPerDay;
    var d1, m1, y1 := userdate(starttime, "%d"), userdate(starttime, "%B"), userdate(starttime, "%Y");
    var m2 := userdate(endtime, "%B");
    var y2 := userdate(endtime, "%Y");
    var startShown := [d1] + (if m1 == m2 then [] else [m1] + (if y1 == y2 then [] else [y1]));
    assert (if m1 == m2 then y1 else y2) == y2;
    var prefix := Words(startShown);
    assert PeriodName(userdate, starttime) == prefix + " - " + Words([userdate(endtime, "%d"), m2, y2]);
  }

  // ---------------------------------------------------------------------
  // Calendar instance identifiers
  // ---------------------------------------------------------------------

  /** The process-wide count of calendar instances constructed so far. */
  datatype InstanceCounter = InstanceCounter(count: nat)

  /** Constructing an exporter bumps the counter and takes the new count as
      the instance's identifier. */
  function NewInstance(c: InstanceCounter): (r: (InstanceCounter, nat))
    ensures r.1 > c.count
    ensures r.0.count == r.1
  {
    var next := InstanceCounter(c.count + 1);
    (next, next.count)
  }

  /** `k` constructions in a row: the identifiers handed out, in order. */
  function NewInstances(c: InstanceCounter, k: nat): (r: (InstanceCounter, seq<nat>))
    ensures |r.1| == k
    ensures r.0.count == c.count + k
    ensures forall i :: 0 <= i < k ==> c.count < r.1[i] <= r.0.count
    ensures forall i, j :: 0 <= i < j < k ==> r.1[i] < r.1[j]
    decreases k
  {
    if k == 0 then (c, [])
    else
      var (c1, id) := NewInstance(c);
      var (c2, ids) := NewInstances(c1, k - 1);
      (c2, [id] + ids)
  }
}
